=== FILE: README.md ===
# Map event editor: composer, marker loading and CSV events, in Dafny

This project models the logic inside a small map viewer/editor. The browser
shows event markers loaded from a Go backend. The user draws a polygon, fills
in a name and a date range, and submits the area as a new event. Three pieces
of logic are lifted out of the Leaflet and gin glue as pure functions over
plain data:

- **The event composer** (client). It holds the stored drawn shape, handles
  the draw notification and the submit click (ordered validation, GeoJSON
  `Feature` payload, request), and reacts to success, application failure and
  transport failure. One model covers the three revisions of the script
  through `Composer.Revision`:
  - `Configured` is `frontend/static/app.js`.
  - `Draft` is `frontend/app.js`.
  - `FirstDraft` is `frontend/app_v0.js` as written.
- **Marker handling** (client). `loadMarkersOnMap` clears the marker group and
  keeps the entries whose coordinates parse. It then either fits the bounds or
  resets the view. The drafts filter by truthiness instead. `changeMap` builds
  the selector URL.
- **CSV rows to events, and the POST response** (server). `loadEvents` of both
  backend revisions starts from the already-tokenised records. The POST
  handler maps "bind ok / bind failed" to a response whose `status` drives
  the client's branch.

Modules: `Wrappers` (Option/Result), `GeoJson` (geometry and feature records),
`Js` (truthiness and `parseFloat`), `Composer`, `Markers`, `CsvEvents`, `Api`.

Parameters stand in for what the model cannot see:
- Number parsing is an abstract oracle. JavaScript `parseFloat` is
  `string -> JsNumber`, where `NaN` is a constructor. Go's
  `strconv.ParseFloat(s, 32)` is `string -> Option<real>`.
- The file system is a function from path to read outcome.
- Gin's JSON binding is a `Binding` value.
- The server's reply, as the client's handlers see it, is a `Composer.Reply`.

## Model

| member | source | states |
|---|---|---|
| Composer.OnDrawCreated | frontend/static/app.js:64-74 | A `polygon` notification replaces the stored shape and the draw layer's contents with the new geometry, whatever was there before. Any other layer type leaves the state unchanged. The draw layer keeps showing exactly the stored shape. |
| Composer.SecondDrawingWins | frontend/app.js:80-85 | Drawing a second polygon after a first gives the same state as drawing only the second. The draw layer then holds just that polygon. |
| Composer.Submit | frontend/static/app.js:77-113 | A request is sent iff a shape is stored, the name is non-empty (configured revision only) and both dates are non-empty. The first failing check in the order shape, name, dates picks the alert. A sent request is a JSON POST to `apiBaseUrl + "/api/events/new"`, or to the fixed localhost URL in the drafts. Its body is a `Feature` with the stored geometry, both dates as typed, and the typed name (configured) or "Nuovo Evento Creato" (drafts). |
| Composer.NoShapeRejectsEveryForm | frontend/app_v0.js:62-73 | With no shape stored, every form and base URL gives the same rejection, and no request is sent. |
| Composer.WhitespacePasses | frontend/static/app.js:87-95 | The checks are JavaScript falsiness. A name and dates made only of spaces pass and the request is sent. |
| Composer.DraftsIgnoreTypedName | frontend/app.js:89-111 | In the drafts, the request does not depend on the name the user typed. |
| Composer.ErrorDetail | frontend/static/app.js:136 | The text after the failure prefix is the server's message when it is present and non-empty. Otherwise it is "Unknown error.". It is never empty. |
| Composer.HandleReply | frontend/static/app.js:114-142 | `status === "success"` in the working revisions: a single success alert, the payload is added to the map in the fixed green style, the stored shape becomes null and the draw layer is emptied. Any other status: the state is unchanged, and the alert is the prefix plus the message detail (configured) or the fixed draft text. Transport failure or a `null` body: the state is unchanged and the communication-error alert is shown. Every outcome keeps the draw layer consistent with the stored shape. |
| Composer.Click | frontend/app.js:89-149 | A rejected click shows exactly its validation alert, issues no request and changes nothing. A request is issued iff validation passes, and it is the one `Submit` builds; the alerts and the next state are then those `HandleReply` gives for that request's body and the reply. |
| Composer.RetryResendsSameRequest | frontend/static/app.js:135-142 | After an application or transport failure, clicking again with the same form sends the identical request, so the user need not redraw. |
| Composer.SuccessReturnsToIdle | frontend/static/app.js:118-133 | After a successful submission, the next click asks to draw an area first, whatever the form holds. |
| Composer.FirstDraftSuccessKeepsShape | frontend/app_v0.js:98-126 | As written, a successful reply in the first draft shows the success alert and then the communication-error alert. The state is left unchanged, so the next click posts the same event again. |
| Composer.DraftCorrectsFirstDraft | frontend/app.js:124-148 | The draft validates and builds requests exactly like the first draft, and reacts identically to every non-success reply. On success it shows only the success alert and returns to idle. |
| Composer.SessionKeepsOneShape | frontend/app_v0.js:48-55 | Over any sequence of draw notifications and clicks from a consistent state, the draw layer shows exactly the stored shape. So at most one shape is ever pending. |
| Composer.PageSessionKeepsOneShape | frontend/app_v0.js:8-10 | From page load (nothing drawn, empty draw layer, no events), any sequence of draws and clicks leaves the draw layer holding exactly the stored shape, so at most one. |
| Composer.SessionOnlyAddsEvents | frontend/static/app.js:122-129 | Over any session, created-event layers are only appended, never removed. There is at most one new layer per action. |
| Composer.AlertText | frontend/static/app.js:82-142 | Every alert a revision can raise has a visible text; only the drafts' name alert, which they never raise, is empty. The configured revision's failure alert ends with the server's detail, verbatim. |
| Composer.DraftsShareAlertTexts | frontend/app_v0.js:65-126 | The two drafts show the same text for every alert. |
| Js.Truthy | frontend/app.js:52 | JavaScript truthiness: a missing field is falsy. A string is truthy iff it is non-empty, and a number iff it is non-zero. |
| Js.ParseFloat | frontend/static/map.js:54-55 | `parseFloat` gives NaN exactly for a missing field or for text the parse oracle cannot read. A number passes through unchanged. |
| Js.ParsedTextIsTruthy | frontend/static/map.js:57 | When `parseFloat("")` is NaN, a text field that parses is truthy. For text, the later revision's test implies the drafts' test. |
| Markers.ValidMarkers | frontend/static/map.js:53-63 | The markers kept from an event list all have numeric (non-NaN) coordinates, and there are no more of them than entries. |
| Markers.ValidMarkersAppend | frontend/static/map.js:53 | Filtering a concatenation is the concatenation of the filtered parts, so input order is preserved. |
| Markers.ValidMarkersExactly | frontend/static/map_Backup.js:64-74 | A marker is shown iff some entry whose latitude and longitude both parse yields it. Invalid entries are skipped silently. |
| Markers.LoadMarkersOnMap | frontend/static/map.js:49-73 | The loop that mirrors the script leaves the marker group exactly equal to the valid markers of the new list. Previous markers never survive. With one or more markers the view fits their bounds with padding [20,20]. With none it resets to [41.9, 12.5] zoom 5. The outcome equals `Reload`. |
| Markers.Reload | frontend/static/map.js:49-73 | A load as a transition: the group becomes the valid markers of the list. The view fits them with padding [20,20] iff there is at least one, and otherwise resets to [41.9, 12.5] zoom 5. |
| Markers.ReloadIdempotent | frontend/static/map.js:50 | Loading the same list twice gives the same group and view as loading it once. The outcome does not depend on the previous group. |
| Markers.BadLatitudeSkipped | frontend/static/map.js:57 | For the list A ("41.9", "12.5") and B ("bad", "12.5"), only A yields a marker. |
| Markers.LoadMarkersGuarded | frontend/static/map_Backup.js:60-92 | The group is the valid markers. With a map that has the needed method, the view changes as in the unguarded load and nothing is logged. Otherwise (no map, or the needed method missing) the view is left alone and a warning naming `fitBounds` or `setView` is logged; the view stays unchanged exactly in those cases. |
| Markers.GuardedAgreesWithUnguarded | frontend/static/map_Backup.js:76-91 | With a complete map object, the guarded load equals the unguarded one and logs nothing. |
| Markers.DraftLoad | frontend/app.js:45-73 | A `null` or non-array list, or an entry whose truthy coordinates do not parse, throws. The fit is then skipped and the load-error alert is shown, always with that one text; markers already added stay. Otherwise the markers are those with truthy coordinates, and the bounds are fitted with padding [20,20] iff at least one exists. The initial view is never reset. |
| Markers.DraftMarkers | frontend/app.js:51-62 | The drafts' loop shows no more markers than entries, and every marker shown has numeric coordinates. `L.marker` rejects NaN, so the loop stops at the first truthy entry that does not parse. |
| Markers.DraftMarkersAppend | frontend/app_v0.js:32-38 | The loop over a concatenation is the loop over the first part, continued over the second only if the first did not stop. So input order is kept. |
| Markers.DraftMarkersExactly | frontend/app.js:52-58 | The loop stops iff some entry has truthy but unparsable coordinates. When it does not stop, a marker is shown iff some entry with truthy `lat` and `lon` yields it. |
| Markers.FirstDraftLoad | frontend/app_v0.js:29-40 | The first draft adds the same markers as the draft but never reframes the view. An error is only logged, so no alert is shown. |
| Markers.FiltersDiffer | frontend/app.js:52-56 | The two filters disagree both ways. For [B ("bad", "12.5"), A ("41.9", "12.5")] the later revision shows A, while the draft throws on B, shows nothing and raises the load-error alert. A numeric zero is falsy, so the drafts drop it while the later revision keeps it. |
| Markers.DraftsShowPrefixOfParsed | frontend/static/map.js:54-57 | On lists whose coordinates are text, when `parseFloat("")` is NaN, the drafts show a prefix of the later revision's markers. They show all of them unless their loop stops on a NaN coordinate. |
| Markers.ChangeMap | frontend/static/map.js:34-46 | Both branches navigate to `"/?filename="` followed by the selected value, unencoded. The value is exactly what follows the prefix. |
| Api.SelectorRoundTrip | frontend/static/map_Backup.js:48-57 | For a value free of query metacharacters, the backend reads back exactly the selected filename from the selector URL. It then opens `data/` plus that name, or `data/uk_festivals.csv` for the empty selection. |
| Api.FilenameParam | backend/main.go:120 | The `filename` the backend reads from a selector URL is, when defined, the plain value that follows `"/?filename="` in the URL. |
| CsvEvents.ResolvePath | backend/main.go:49-54 | An empty filename means `uk_festivals.csv`. The path is `data/` plus the filename, with no sanitisation. |
| CsvEvents.Radius | backend/main.go:72-82 | The radius is the parsed column 9 when the row has 10 or more columns, column 9 is non-empty and it parses. In every other case it is 0. |
| CsvEvents.RowsToEvents | backend/main.go:71-95 | Mapping data rows never yields more events than rows. |
| CsvEvents.RowsToEventsAppend | backend/main.go:71 | Mapping distributes over concatenation of rows, so row order is preserved. |
| CsvEvents.RowsToEventsExactly | backend/main.go:84-94 | An event is produced iff some row with three or more columns yields it from columns 0-2. Shorter rows are dropped. |
| CsvEvents.RowsToEventsWide | backend/main.go:84-91 | When every row has three or more columns, event i comes from row i and nothing is dropped. |
| CsvEvents.LoadEvents | backend/main.go:45-101 | A file that cannot be opened or read gives the empty, non-nil slice. A file with at most one record gives nil. Otherwise the events are exactly the mapped data rows after the header, in order: one event per row with three or more columns, so at most `records - 1`. The slice is nil iff no event was appended. |
| CsvEvents.UniformRowsAllOrNothing | backend/main.go:62-63 | `ReadAll` requires every record to have the same field count. On such records the column filter drops every row (fewer than three columns) or none. |
| CsvEvents.RowsToEventsV01 | backend/main_v01.go:43-50 | The first backend maps every row. It succeeds iff every row has three or more columns, and then yields exactly one event per row. Otherwise it panics on the index. |
| CsvEvents.LoadEventsV01 | backend/main_v01.go:24-52 | The first backend reads `data/uk_festivals.csv`. It succeeds iff the file reads, has a header row, and every data row has three or more columns. It then returns `records - 1` events, in a slice that is nil iff there are no data rows. An I/O error is fatal. |
| CsvEvents.V01AgreesWithCurrent | backend/main_v01.go:41-51 | On every file the first backend survives, the current backend with the default filename returns the same events in the same order, now with a radius. The two agree on when the list is nil. |
| CsvEvents.V01RowsAgree | backend/main_v01.go:44-48 | On rows with three or more columns, each event of the first backend is the current backend's event for that row without its radius. |
| Api.HandlePost | backend/main.go:145-172 | A body that does not bind gets 400 with status "error", the fixed message "Formato dei dati non valido." and the bind error. A body that binds gets 200 with status "success", echoing the feature unchanged. The status is "success" iff the body bound. |
| Api.HandlePostV01 | backend/main_v01.go:76-93 | A bind failure gets 400 with only an `error` key: no status, no message. A successful bind gets 200 with status "success" and echoes the data. |
| Api.CurrentBackendDrivesClient | backend/main.go:147-155 | With the current backend, the client's success test passes iff the body bound. A rejected body shows the failure prefix plus "Formato dei dati non valido." and keeps the drawn shape. |
| Api.FirstBackendErrorIsUnknown | backend/main_v01.go:80-83 | With the first backend, a bind failure fails the client's `status === "success"` test. The configured client shows "Unknown error." and keeps its state. |
| Api.StartV01 | backend/main_v01.go:63-64 | The first backend starts iff its one-time load succeeds, and then holds exactly the loaded list. |
| Api.ServeV01 | backend/main_v01.go:69-93 | A GET answers with the list the server holds and a POST with the first backend's POST response. No request changes the held list. |
| Api.ServeAllV01 | backend/main_v01.go:64-73 | Requests are answered one response each. |
| Api.EveryGetSeesStartupList | backend/main_v01.go:64-73 | Whatever requests arrive, and in whatever order, every GET to the first backend answers with the list loaded at startup. Posted events never appear in it. |
| Api.ServedInOrder | backend/main_v01.go:69-93 | Response i answers request i alone. |
| Api.ToJson | backend/main.go:141 | `c.JSON` sends a nil slice as `null` and any other slice, empty included, as an array of the events. |
| Api.PageMarkersBoundedByRows | backend/main.go:136-142 | The list served for a filename yields at most one marker per event in the current client. The drafts show a prefix of those markers, all of them unless their loop stops on a NaN coordinate. A nil list reaches the drafts as `null` and fails their load with the alert. |

## Findings

| source | as written | input that shows it | evidently intended | confidence | as-written member | corrected member |
|---|---|---|---|---|---|---|
| frontend/app_v0.js:105 | The success handler reads `newEventStyle`, which is declared only inside the second `DOMContentLoaded` callback (line 148). The lookup throws after the success alert, so the catch handler runs. | Any submission whose reply has `status: "success"` | Show the created event, clear the draw layer and the stored shape, as `frontend/app.js` does with the style declared in scope | medium, not executed | Composer.FirstDraftSuccessKeepsShape | Composer.DraftCorrectsFirstDraft |

## Left out

- Leaflet itself is not modelled: tile layers, the draw and edit controls, `toGeoJSON`, bounds geometry, popups and their HTML. Geometry is an opaque record and a view change is a `View` tag. The one library behaviour the model does take in is that `L.marker` throws on a NaN coordinate ("Invalid LatLng object"). That is what ends the drafts' marker loop in `Markers.DraftMarkers`. The edit control could remove a drawn layer without clearing the stored shape; that path is not modelled. It can also reshape the drawn layer in place (frontend/static/app.js:49-51): the stored shape keeps the geometry captured when the shape was drawn, and no script listens for `draw:edited`, so the request posts the shape as it was before the edit. `Composer.Consistent` and `Composer.SessionKeepsOneShape` cover only draws and clicks, not edits.
- DOM reads, `alert`, console logging and `window.location` navigation are not modelled. Alerts are `Composer.Alert` values with their texts in `Composer.AlertText`, and navigation is the URL `Markers.ChangeMap` returns.
- Timing is not modelled: `setTimeout`, the `mapReady` event and the config fetch of `frontend/static/app.js` (lines 5-24). The base URL is a parameter. That script can call `initDrawingAndSubmission` twice (lines 8 or 11, and 19), which registers duplicate click handlers. This is event wiring and is not modelled.
- The configured script's click handler reads the module-level `apiBaseUrl` at click time. A click before the config has arrived, or after the config fetch failed, posts to `"undefined/api/events/new"`. Any other click posts to the configured URL, whichever path registered the handler. The model passes the base URL in force at click time as a parameter; it does not model the config fetch itself.
- Api.HandlePostV01: the first backend binds the body into a generic map, so any JSON object binds and is echoed as received. The model echoes the same `Feature` record as the current backend does.
- Overlapping submissions from double clicks are not modelled. This is concurrency and the source does not guard against it. `Composer.HandleReply` takes the state at reply time, so a reply arriving after a new drawing is still expressible.
- HTTP, gin routing, CORS, template rendering and the JSON marshal fallback (`backend/main.go`:104-134) are plumbing and are not modelled. The GET `/api/events` handler of `backend/main.go` is `CsvEvents.LoadEvents` of its query parameter.
- CSV tokenising (`encoding/csv`) is not modelled: the model starts from the records. The `FileSystem` oracle also allows uneven records, which `ReadAll` never returns: with the default `FieldsPerRecord` it rejects a record whose field count differs from the first. That is a read error, giving `[]Event{}` in `backend/main.go` and `log.Fatal` in `backend/main_v01.go`. `CsvEvents.UniformRowsAllOrNothing` states what this means for the column filter.
- Float parsing is not modelled. `parseFloat`, `strconv.ParseFloat(..., 32)` and the float32 narrowing are abstract oracles, not IEEE arithmetic.
- CsvEvents.Radius: the radius is a `real`. The float64-to-float32 conversion is not written out, because the parse oracle already returns a float32-representable value. Go's `strconv.ParseFloat` also accepts "NaN" and "Inf" without error, and a real-valued oracle cannot express those values. With such a radius `json.Marshal` fails: the page falls back to `"[]"` (backend/main.go:124-128) and the `c.JSON` of the event list fails (backend/main.go:141). Neither failure is modelled.
- Composer.HandleReply: a `message` field that is not a string (a number, say) is treated as absent, although JavaScript would concatenate its text. A JSON reply that is neither `null` nor an object behaves like an object with no fields.
- Markers.ChangeMap: the URL is not percent-encoded. `Api.FilenameParam` only models how the backend reads back values free of `& # % + ;`.
- The page's embedded list (`window.initialMapEvents`, `frontend/static/map.js`:8-10) depends on `index.html`, which is not part of this model. A nil list marshals to `null` there, and the script then skips `loadMarkersOnMap`.
- Log messages of both backends are not modelled. `log.Fatal` and runtime panics in `backend/main_v01.go` are a `CsvEvents.Crash` result, not a process exit.

=== FILE: api.dfy ===
/**
 * The backend's HTTP surface as the client sees it: the shape of the POST
 * `/api/events/new` response in both backend revisions, the first backend's
 * load-once event list, and how responses and served lists drive the client.
 */
module Api {
  import opened Wrappers
  import opened GeoJson
  import opened CsvEvents
  import Composer
  import Markers
  import Js

  /** What `c.ShouldBindJSON` made of the request body. */
  datatype Binding = Bound(feature: Feature) | BindError(err: string)

  /** A JSON response: HTTP code and the keys of the body that are present. */
  datatype PostResponse = PostResponse(
    code: int,
    status: Option<string>,
    message: Option<string>,
    error: Option<string>,
    data: Option<Feature>)

  const StatusOK := 200
  const StatusBadRequest := 400
  const InvalidFormat := "Formato dei dati non valido."
  const Registered := "Nuovo evento registrato correttamente."

  /**
   * POST `/api/events/new` in `backend/main.go`: a body that does not bind gets
   * a 400 with status "error" and a fixed message; one that binds is echoed back
   * unchanged with status "success".
   */
  function HandlePost(b: Binding): (r: PostResponse)
    ensures b.BindError? ==>
      r == PostResponse(400, Some("error"), Some("Formato dei dati non valido."), Some(b.err), None)
    ensures b.Bound? ==>
      r.code == 200 && r.status == Some("success") && r.data == Some(b.feature) && r.error == None
    ensures r.status == Some("success") <==> b.Bound?
  {
    match b
    case BindError(err) => PostResponse(StatusBadRequest, Some("error"), Some(InvalidFormat), Some(err), None)
    case Bound(feature) => PostResponse(StatusOK, Some("success"), Some(Registered), None, Some(feature))
  }

  /**
   * POST `/api/events/new` in `backend/main_v01.go`: a bind failure answers
   * with an `error` key only, no `status` and no `message`.
   */
  function HandlePostV01(b: Binding): (r: PostResponse)
    ensures b.BindError? ==> r == PostResponse(400, None, None, Some(b.err), None)
    ensures b.Bound? ==>
      r.code == 200 && r.status == Some("success") && r.data == Some(b.feature) && r.error == None
    ensures r.status.Some? <==> b.Bound?
  {
    match b
    case BindError(err) => PostResponse(StatusBadRequest, None, None, Some(err), None)
    case Bound(feature) => PostResponse(StatusOK, Some("success"), Some(Registered), None, Some(feature))
  }

  /** The reply the client's handlers see for a response body that arrived intact. */
  function ClientReply(r: PostResponse): Composer.Reply {
    Composer.JsonValue(r.status, r.message)
  }

  /**
   * With the current backend the client's branch follows the binding: a bound
   * body is a success and a rejected one shows the backend's fixed message,
   * leaving the drawn shape in place.
   */
  lemma CurrentBackendDrivesClient(s: Composer.State, payload: Feature, b: Binding)
    ensures Composer.Succeeded(ClientReply(HandlePost(b))) <==> b.Bound?
    ensures b.BindError? ==>
      Composer.HandleReply(Composer.Configured, s, payload, ClientReply(HandlePost(b)))
        == Composer.Reaction([Composer.Failed("Formato dei dati non valido.")], s)
  {
  }

  /**
   * With the first backend a bind failure carries no `status` and no `message`:
   * the client takes the failure branch and falls back to "Unknown error.".
   */
  lemma FirstBackendErrorIsUnknown(s: Composer.State, payload: Feature, err: string)
    ensures !Composer.Succeeded(ClientReply(HandlePostV01(BindError(err))))
    ensures Composer.HandleReply(Composer.Configured, s, payload, ClientReply(HandlePostV01(BindError(err))))
         == Composer.Reaction([Composer.Failed("Unknown error.")], s)
  {
  }

  // ---------------------------------------------------------------------------
  // The first backend: events loaded once at startup

  /** The first backend after startup: the list it loaded, captured by its handlers. */
  datatype ServerV01 = ServerV01(events: GoSlice<EventV01>)

  /** Startup: load the default file once, or stop. */
  function StartV01(fs: FileSystem): (r: Result<ServerV01, Crash>)
    ensures r.Success? <==> LoadEventsV01(fs).Success?
    ensures r.Success? ==> r.value.events == LoadEventsV01(fs).value
  {
    match LoadEventsV01(fs)
    case Success(events) => Success(ServerV01(events))
    case Failure(crash) => Failure(crash)
  }

  datatype ApiRequest = GetEvents | PostEvent(binding: Binding)

  datatype ApiResponse = EventList(events: GoSlice<EventV01>) | PostReply(response: PostResponse)

  /** One request to the first backend. Nothing a request does changes the loaded list. */
  function ServeV01(server: ServerV01, req: ApiRequest): (r: ApiResponse)
    ensures r.EventList? <==> req.GetEvents?
    ensures r.EventList? ==> r.events == server.events
    ensures req.PostEvent? ==> r == PostReply(HandlePostV01(req.binding))
  {
    match req
    case GetEvents => EventList(server.events)
    case PostEvent(b) => PostReply(HandlePostV01(b))
  }

  /** The responses to a sequence of requests, answered in order. */
  function ServeAllV01(server: ServerV01, reqs: seq<ApiRequest>): (rs: seq<ApiResponse>)
    ensures |rs| == |reqs|
  {
    if reqs == [] then [] else [ServeV01(server, reqs[0])] + ServeAllV01(server, reqs[1..])
  }

  /**
   * Whatever requests arrive, and in whatever order, every GET answers with the
   * list loaded at startup; posted events never appear in it.
   */
  lemma {:induction false} EveryGetSeesStartupList(fs: FileSystem, reqs: seq<ApiRequest>)
    requires StartV01(fs).Success?
    ensures forall i :: 0 <= i < |reqs| && reqs[i].GetEvents? ==>
      ServeAllV01(StartV01(fs).value, reqs)[i] == EventList(LoadEventsV01(fs).value)
  {
    ServedInOrder(StartV01(fs).value, reqs);
  }

  /** Response i is the answer to request i alone. */
  lemma {:induction false} ServedInOrder(server: ServerV01, reqs: seq<ApiRequest>)
    ensures forall i :: 0 <= i < |reqs| ==> ServeAllV01(server, reqs)[i] == ServeV01(server, reqs[i])
    decreases |reqs|
  {
    if reqs != [] {
      ServedInOrder(server, reqs[1..]);
      assert forall i :: 1 <= i < |reqs| ==> reqs[1..][i - 1] == reqs[i];
    }
  }

  // ---------------------------------------------------------------------------
  // The page route: map selector, event list, markers

  /** Characters a query value must avoid to reach the handler unchanged. */
  predicate PlainQueryValue(v: string) {
    forall i :: 0 <= i < |v| ==> v[i] !in "&#%+;"
  }

  /** The `filename` the backend's `c.Query` reads from a selector URL, for plain values. */
  function FilenameParam(url: string): (r: Option<string>)
    ensures r.Some? ==> Markers.FilenameQuery + r.value == url && PlainQueryValue(r.value)
  {
    var n := |Markers.FilenameQuery|;
    if |url| >= n && url[..n] == Markers.FilenameQuery && PlainQueryValue(url[n..]) then Some(url[n..])
    else None
  }

  /**
   * Selecting a map with a plain filename makes the backend read exactly that
   * file from the data directory; the empty selection reads the default file.
   */
  lemma SelectorRoundTrip(selected: string)
    requires PlainQueryValue(selected)
    ensures FilenameParam(Markers.ChangeMap(selected)) == Some(selected)
    ensures ResolvePath(FilenameParam(Markers.ChangeMap(selected)).value)
         == if selected == "" then "data/uk_festivals.csv" else "data/" + selected
  {
  }

  /** An event as the client receives it: name and coordinates are JSON strings. */
  function ToRaw(e: Event): Markers.RawEvent {
    Markers.RawEvent(Js.Text(e.name), Js.Text(e.lat), Js.Text(e.lon))
  }

  /** The list embedded in the page, as the client sees it. */
  function Served(events: seq<Event>): (raw: seq<Markers.RawEvent>)
    ensures |raw| == |events|
    ensures forall i :: 0 <= i < |events| ==> raw[i] == ToRaw(events[i])
  {
    seq(|events|, i requires 0 <= i < |events| => ToRaw(events[i]))
  }

  /** The marshalled list as the client parses it: a nil slice is `null`, any other slice an array. */
  function ToJson(events: GoSlice<Event>): (json: Markers.EventsJson)
    ensures json.JsonNull? <==> events.Nil?
    ensures json.JsonArray? ==> json.entries == Served(events.Elements())
  {
    match events
    case Nil => Markers.JsonNull
    case Slice(items) => Markers.JsonArray(Served(items))
  }

  /**
   * The list served for a filename yields at most one marker per event in the
   * current client. Because coordinates are served as text, the drafts show a
   * prefix of those markers, and all of them unless their loop stops on a `NaN`
   * coordinate. A nil list reaches the drafts as `null` and fails their load.
   */
  lemma PageMarkersBoundedByRows(filename: string, fs: FileSystem, parse32: Float32Parser,
                                 parse: string -> Js.JsNumber)
    requires Js.EmptyIsNaN(parse)
    ensures
      var events := LoadEvents(filename, fs, parse32);
      var raw := Served(events.Elements());
      && |Markers.ValidMarkers(raw, parse)| <= |events.Elements()|
      && Markers.DraftMarkers(raw, parse).shown <= Markers.ValidMarkers(raw, parse)
      && (!Markers.DraftMarkers(raw, parse).aborted ==>
            Markers.DraftMarkers(raw, parse).shown == Markers.ValidMarkers(raw, parse))
      && (events.Nil? ==> Markers.DraftLoad(ToJson(events), parse).alert.Some?)
  {
    var raw := Served(LoadEvents(filename, fs, parse32).Elements());
    Markers.DraftsShowPrefixOfParsed(raw, parse);
  }
}

=== FILE: composer.dfy ===
/**
 * The client-side event composer: the stored drawn shape, the submit click
 * (ordered validation, payload, request) and the reaction to the server's reply.
 *
 * One model covers the three revisions of the script; `Revision` names the
 * differences (name field, base URL, alert texts, how the success branch ends).
 */
module Composer {
  import opened Wrappers
  import opened GeoJson
  import Js

  /** The three revisions of the client script that hold the composer. */
  datatype Revision =
    | Configured  // frontend/static/app.js: name field, configured base URL, server message shown
    | Draft       // frontend/app.js: no name field, fixed URL, fixed event name
    | FirstDraft  // frontend/app_v0.js as written: like Draft, but its success branch throws

  /** The fixed style a created event is drawn with: green border and semi-transparent green fill. */
  datatype Style = Style(color: string, weight: int, fillColor: string, fillOpacity: real)

  const EventStyle := Style("#28a745", 2, "#28a745", 0.4)

  /** A created event shown on the map. */
  datatype EventLayer = EventLayer(feature: Feature, style: Style)

  /**
   * The composer's state: the stored drawn shape (`drawnPolygon`, of which only
   * the geometry is ever read), the contents of the draw layer (`drawnItems`) and
   * the created-event layers added to the map.
   */
  datatype State = State(drawn: Option<Geometry>, drawLayer: seq<Geometry>, events: seq<EventLayer>)

  /** Page load: nothing drawn, nothing created. */
  const Initial := State(None, [], [])

  /** The draw layer shows exactly the stored shape, and nothing when none is stored. */
  predicate Consistent(s: State) {
    s.drawLayer == (if s.drawn.Some? then [s.drawn.value] else [])
  }

  /** The two phases of the interaction: nothing pending, or one shape pending submission. */
  datatype Phase = Idle | ShapeDrawn

  function PhaseOf(s: State): Phase {
    if s.drawn.Some? then ShapeDrawn else Idle
  }

  // ---------------------------------------------------------------------------
  // Drawing

  /** The drawing toolkit's `draw:created` notification. */
  datatype DrawCreated = DrawCreated(layerType: string, geometry: Geometry)

  const PolygonType := "polygon"

  /**
   * A polygon replaces whatever was stored and drawn before; any other layer
   * type is ignored. All three revisions behave alike here.
   */
  function OnDrawCreated(s: State, e: DrawCreated): (s': State)
    ensures e.layerType == PolygonType ==>
      s'.drawn == Some(e.geometry) && s'.drawLayer == [e.geometry] && s'.events == s.events
    ensures e.layerType != PolygonType ==> s' == s
    ensures e.layerType == PolygonType ==> Consistent(s') && PhaseOf(s') == ShapeDrawn
    ensures Consistent(s) ==> Consistent(s')
  {
    if e.layerType == PolygonType then
      s.(drawLayer := [e.geometry], drawn := Some(e.geometry))
    else
      s
  }

  /** Drawing a second polygon discards the first: only the last one is pending. */
  lemma SecondDrawingWins(s: State, first: DrawCreated, second: DrawCreated)
    requires second.layerType == PolygonType
    ensures OnDrawCreated(OnDrawCreated(s, first), second) == OnDrawCreated(s, second)
    ensures OnDrawCreated(OnDrawCreated(s, first), second).drawLayer == [second.geometry]
  {
  }

  // ---------------------------------------------------------------------------
  // Alerts

  /**
   * What a click can tell the user. `Failed` carries the text appended to the
   * failure prefix: the server's message in the configured revision, nothing in the drafts.
   */
  datatype Alert =
    | DrawFirst
    | NameMissing
    | DatesMissing
    | Created
    | Failed(detail: string)
    | CommunicationError

  const UnknownError := "Unknown error."

  /** The text each revision shows for an alert. */
  function AlertText(rev: Revision, a: Alert): (text: string)
    // every alert a revision can raise has a visible text; the drafts never raise `NameMissing`
    ensures text == "" <==> rev != Configured && a == NameMissing
    // the configured revision ends its failure text with the detail, verbatim
    ensures rev == Configured && a.Failed? ==>
      |text| >= |a.detail| && text[|text| - |a.detail|..] == a.detail
  {
    if rev == Configured then
      match a
      case DrawFirst => "Please, draw an area on the map before clicking on Send."
      case NameMissing => "Please, insert an event name."
      case DatesMissing => "Please, select a star date and an end date."
      case Created => "Event successfully created!"
      case Failed(detail) => "An error occurred while creating the event: " + detail
      case CommunicationError => "An error occurred communicating with the server."
    else
      match a
      case DrawFirst => "Per favore, disegna un'area sulla mappa prima di inviare."
      case NameMissing => ""  // the drafts have no name check
      case DatesMissing => "Per favore, seleziona una data di inizio e una di fine."
      case Created => "Evento creato con successo!"
      case Failed(_) => "Si è verificato un errore nella creazione dell'evento."
      case CommunicationError => "Si è verificato un errore di comunicazione con il server."
  }

  /** Both drafts show the same texts: `frontend/app_v0.js` and `frontend/app.js` share their alert strings. */
  lemma DraftsShareAlertTexts(a: Alert)
    ensures AlertText(Draft, a) == AlertText(FirstDraft, a)
  {
  }

  // ---------------------------------------------------------------------------
  // Submitting

  /** The three form inputs, read live on each click. */
  datatype Form = Form(name: string, startDate: string, endDate: string)

  /** The request a click issues. */
  datatype Request = Request(verb: string, url: string, contentType: string, body: Feature)

  /** A click either stops at a validation alert or sends a request. */
  datatype Submission = Rejected(alert: Alert) | Sent(request: Request)

  const NewEventPath := "/api/events/new"
  const DraftUrl := "http://localhost:8082/api/events/new"
  const DraftEventName := "Nuovo Evento Creato"
  const Post := "POST"
  const JsonContentType := "application/json"

  /** A form string passes a check iff it is truthy in JavaScript's sense. */
  predicate Filled(field: string) {
    Js.Truthy(Js.Text(field))
  }

  /** Where a revision posts new events; only the configured one uses the base URL it was given. */
  function EndpointOf(rev: Revision, apiBaseUrl: string): string {
    if rev == Configured then apiBaseUrl + NewEventPath else DraftUrl
  }

  /** The event name a revision posts. */
  function EventNameOf(rev: Revision, form: Form): string {
    if rev == Configured then form.name else DraftEventName
  }

  /** The GeoJSON `Feature` built from the stored geometry and the form. */
  function Payload(rev: Revision, geometry: Geometry, form: Form): Feature {
    Feature(FeatureKind, geometry, Properties(form.startDate, form.endDate, EventNameOf(rev, form)))
  }

  /**
   * The submit click up to the request: the checks run in a fixed order
   * (shape, then name in the configured revision, then both dates) and the first
   * that fails decides the alert; otherwise the payload is posted as JSON.
   */
  function Submit(rev: Revision, s: State, form: Form, apiBaseUrl: string): (r: Submission)
    // a request is sent exactly when every check passes
    ensures r.Sent? <==>
      s.drawn.Some? && (rev == Configured ==> Filled(form.name))
      && Filled(form.startDate) && Filled(form.endDate)
    // the first failing check decides the alert
    ensures s.drawn.None? ==> r == Rejected(DrawFirst)
    ensures s.drawn.Some? && rev == Configured && !Filled(form.name) ==>
      r == Rejected(NameMissing)
    ensures (s.drawn.Some? && (rev == Configured ==> Filled(form.name))
             && (!Filled(form.startDate) || !Filled(form.endDate))) ==>
      r == Rejected(DatesMissing)
    // the request: a JSON POST to the revision's endpoint of exactly the stored geometry and form values
    ensures r.Sent? ==>
      && r.request.verb == Post
      && r.request.contentType == JsonContentType
      && r.request.url == (if rev == Configured then apiBaseUrl + NewEventPath else DraftUrl)
      && r.request.body.kind == FeatureKind
      && r.request.body.geometry == s.drawn.value
      && r.request.body.properties.startDate == form.startDate
      && r.request.body.properties.endDate == form.endDate
      && r.request.body.properties.name == (if rev == Configured then form.name else DraftEventName)
  {
    if s.drawn.None? then
      Rejected(DrawFirst)
    else if rev == Configured && !Filled(form.name) then
      Rejected(NameMissing)
    else if !Filled(form.startDate) || !Filled(form.endDate) then
      Rejected(DatesMissing)
    else
      Sent(Request(Post, EndpointOf(rev, apiBaseUrl), JsonContentType,
                   Payload(rev, s.drawn.value, form)))
  }

  /** With no shape stored, the click is rejected with the same alert whatever the form holds. */
  lemma NoShapeRejectsEveryForm(rev: Revision, s: State, f1: Form, f2: Form, base1: string, base2: string)
    requires s.drawn.None?
    ensures Submit(rev, s, f1, base1) == Submit(rev, s, f2, base2)
    ensures Submit(rev, s, f1, base1).Rejected?
  {
  }

  /** Validation is JavaScript falsiness, not blankness: whitespace-only fields pass every check. */
  lemma WhitespacePasses(rev: Revision, s: State, apiBaseUrl: string)
    requires s.drawn.Some?
    ensures Submit(rev, s, Form(" ", " ", " "), apiBaseUrl).Sent?
  {
  }

  /** The drafts ignore what the user typed as a name: the request does not depend on it. */
  lemma DraftsIgnoreTypedName(rev: Revision, s: State, form: Form, otherName: string, apiBaseUrl: string)
    requires rev != Configured
    ensures Submit(rev, s, form, apiBaseUrl) == Submit(rev, s, form.(name := otherName), apiBaseUrl)
  {
  }

  // ---------------------------------------------------------------------------
  // Reacting to the reply

  /**
   * What the client gets back: `TransportFailure` is a rejected `fetch` or a
   * body that is not JSON; `JsonNull` is the JSON literal `null`, on which
   * `data.status` throws; any other JSON value is seen through its `status`
   * and `message` fields (a field that is missing or not a string is `None`).
   */
  datatype Reply =
    | TransportFailure
    | JsonNull
    | JsonValue(status: Option<string>, message: Option<string>)

  predicate Succeeded(reply: Reply) {
    reply.JsonValue? && reply.status == Some("success")
  }

  /** The alerts shown and the state left behind by one reply. */
  datatype Reaction = Reaction(alerts: seq<Alert>, next: State)

  /** `data.message || 'Unknown error.'`: an absent or empty message gives the fallback. */
  function ErrorDetail(message: Option<string>): (d: string)
    ensures message.Some? && message.value != "" ==> d == message.value
    ensures message.None? || message.value == "" ==> d == "Unknown error."
    ensures d != ""
  {
    if message.Some? && message.value != "" then message.value else UnknownError
  }

  /**
   * The `then`/`catch` handlers. `payload` is the body captured when the
   * request was sent; `s` is the state when the reply arrives.
   */
  function HandleReply(rev: Revision, s: State, payload: Feature, reply: Reply): (r: Reaction)
    // success in the working revisions: the event is shown and the composer returns to idle
    ensures Succeeded(reply) && rev != FirstDraft ==>
      && r.alerts == [Created]
      && r.next.drawn == None && r.next.drawLayer == []
      && r.next.events == s.events + [EventLayer(payload, EventStyle)]
    // every other outcome leaves the state as it was, so the user may retry
    ensures !Succeeded(reply) || rev == FirstDraft ==> r.next == s
    ensures reply.TransportFailure? || reply.JsonNull? ==> r.alerts == [CommunicationError]
    ensures reply.JsonValue? && !Succeeded(reply) ==>
      r.alerts == [Failed(if rev == Configured then ErrorDetail(reply.message) else "")]
    ensures Consistent(s) ==> Consistent(r.next)
    ensures PhaseOf(r.next) == (if Succeeded(reply) && rev != FirstDraft then Idle else PhaseOf(s))
  {
    match reply
    case TransportFailure => Reaction([CommunicationError], s)
    case JsonNull => Reaction([CommunicationError], s)
    case JsonValue(status, message) =>
      if status == Some("success") then
        if rev == FirstDraft then
          // the success alert is shown, then reading `newEventStyle` throws and the catch handler runs
          Reaction([Created, CommunicationError], s)
        else
          Reaction([Created],
                   s.(events := s.events + [EventLayer(payload, EventStyle)], drawLayer := [], drawn := None))
      else if rev == Configured then
        Reaction([Failed(ErrorDetail(message))], s)
      else
        Reaction([Failed("")], s)
  }

  // ---------------------------------------------------------------------------
  // A whole click

  /** The outcome of one click: alerts shown, the request issued if any, and the state afterwards. */
  datatype Step = Step(alerts: seq<Alert>, request: Option<Request>, next: State)

  /** One submit click followed, when a request goes out, by the reply `reply`. */
  function Click(rev: Revision, s: State, form: Form, apiBaseUrl: string, reply: Reply): (r: Step)
    // a rejected click shows one alert, issues nothing and changes nothing
    ensures Submit(rev, s, form, apiBaseUrl).Rejected? ==>
      r == Step([Submit(rev, s, form, apiBaseUrl).alert], None, s)
    ensures r.request.Some? <==> Submit(rev, s, form, apiBaseUrl).Sent?
    ensures r.request.Some? ==> r.request.value == Submit(rev, s, form, apiBaseUrl).request
    ensures Consistent(s) ==> Consistent(r.next)
    ensures |r.alerts| >= 1
    // a click whose request goes out reacts to the reply exactly as the reply handler does
    ensures Submit(rev, s, form, apiBaseUrl).Sent? ==>
      var reaction := HandleReply(rev, s, Submit(rev, s, form, apiBaseUrl).request.body, reply);
      r.alerts == reaction.alerts && r.next == reaction.next
  {
    match Submit(rev, s, form, apiBaseUrl)
    case Rejected(alert) => Step([alert], None, s)
    case Sent(request) =>
      var reaction := HandleReply(rev, s, request.body, reply);
      Step(reaction.alerts, Some(request), reaction.next)
  }

  /**
   * After a failed submission (application or transport error) clicking again
   * with the same form sends the very same request: nothing has to be redrawn.
   */
  lemma RetryResendsSameRequest(rev: Revision, s: State, form: Form, apiBaseUrl: string, reply: Reply, again: Reply)
    requires Click(rev, s, form, apiBaseUrl, reply).request.Some?
    requires !Succeeded(reply)
    ensures Click(rev, Click(rev, s, form, apiBaseUrl, reply).next, form, apiBaseUrl, again).request
         == Click(rev, s, form, apiBaseUrl, reply).request
  {
  }

  /** After a successful submission the next click, whatever the form, asks to draw an area first. */
  lemma SuccessReturnsToIdle(rev: Revision, s: State, form: Form, apiBaseUrl: string, reply: Reply, next: Form, again: Reply)
    requires rev != FirstDraft
    requires Click(rev, s, form, apiBaseUrl, reply).request.Some?
    requires Succeeded(reply)
    ensures Click(rev, Click(rev, s, form, apiBaseUrl, reply).next, next, apiBaseUrl, again)
         == Step([DrawFirst], None, Click(rev, s, form, apiBaseUrl, reply).next)
  {
  }

  // ---------------------------------------------------------------------------
  // The first draft's success branch (a finding)

  /**
   * As written, the first draft's success branch reads `newEventStyle`, which is
   * declared only inside a different `DOMContentLoaded` callback. The lookup
   * throws after the success alert, so the catch handler also reports a
   * communication error and the drawn shape stays pending: the next click posts
   * the same event a second time.
   */
  lemma FirstDraftSuccessKeepsShape(s: State, form: Form, apiBaseUrl: string, reply: Reply, again: Reply)
    requires Succeeded(reply)
    requires Click(FirstDraft, s, form, apiBaseUrl, reply).request.Some?
    ensures Click(FirstDraft, s, form, apiBaseUrl, reply).alerts
         == [Created, CommunicationError]
    ensures Click(FirstDraft, s, form, apiBaseUrl, reply).next == s
    ensures Click(FirstDraft, Click(FirstDraft, s, form, apiBaseUrl, reply).next, form, apiBaseUrl, again).request
         == Click(FirstDraft, s, form, apiBaseUrl, reply).request
  {
  }

  /**
   * The corrected behaviour is that of `frontend/app.js`, which declares the
   * style in the handler's scope: the draft and the first draft agree on every
   * click and reply except a successful one, where the draft shows only the
   * success alert and returns to idle.
   */
  lemma DraftCorrectsFirstDraft(s: State, form: Form, apiBaseUrl: string, reply: Reply)
    ensures Submit(Draft, s, form, apiBaseUrl) == Submit(FirstDraft, s, form, apiBaseUrl)
    ensures !Succeeded(reply) ==>
      Click(Draft, s, form, apiBaseUrl, reply) == Click(FirstDraft, s, form, apiBaseUrl, reply)
    ensures Succeeded(reply) && Click(Draft, s, form, apiBaseUrl, reply).request.Some? ==>
      && Click(Draft, s, form, apiBaseUrl, reply).alerts == [Created]
      && PhaseOf(Click(Draft, s, form, apiBaseUrl, reply).next) == Idle
  {
  }

  // ---------------------------------------------------------------------------
  // Sessions

  /** A user action: a drawing notification, or a click together with the reply it receives. */
  datatype Action = Draw(event: DrawCreated) | Press(form: Form, reply: Reply)

  /** The state after a sequence of actions, one at a time. */
  function Run(rev: Revision, s: State, apiBaseUrl: string, actions: seq<Action>): State
    decreases |actions|
  {
    if actions == [] then s
    else
      var s' := match actions[0]
        case Draw(e) => OnDrawCreated(s, e)
        case Press(form, reply) => Click(rev, s, form, apiBaseUrl, reply).next;
      Run(rev, s', apiBaseUrl, actions[1..])
  }

  /**
   * Throughout any session started from a consistent state the draw layer shows
   * exactly the stored shape: at most one shape is ever pending submission.
   */
  lemma {:induction false} SessionKeepsOneShape(rev: Revision, s: State, apiBaseUrl: string, actions: seq<Action>)
    requires Consistent(s)
    ensures Consistent(Run(rev, s, apiBaseUrl, actions))
    ensures |Run(rev, s, apiBaseUrl, actions).drawLayer| <= 1
    decreases |actions|
  {
    if actions != [] {
      var s' := match actions[0]
        case Draw(e) => OnDrawCreated(s, e)
        case Press(form, reply) => Click(rev, s, form, apiBaseUrl, reply).next;
      SessionKeepsOneShape(rev, s', apiBaseUrl, actions[1..]);
    }
  }

  /** From page load, whatever the user does, the draw layer holds at most the one stored shape. */
  lemma PageSessionKeepsOneShape(rev: Revision, apiBaseUrl: string, actions: seq<Action>)
    ensures Consistent(Run(rev, Initial, apiBaseUrl, actions))
    ensures |Run(rev, Initial, apiBaseUrl, actions).drawLayer| <= 1
  {
    SessionKeepsOneShape(rev, Initial, apiBaseUrl, actions);
  }

  /** Created events are never removed: a session only appends to the map's event layers. */
  lemma {:induction false} SessionOnlyAddsEvents(rev: Revision, s: State, apiBaseUrl: string, actions: seq<Action>)
    ensures s.events <= Run(rev, s, apiBaseUrl, actions).events
    ensures |Run(rev, s, apiBaseUrl, actions).events| <= |s.events| + |actions|
    decreases |actions|
  {
    if actions != [] {
      var s' := match actions[0]
        case Draw(e) => OnDrawCreated(s, e)
        case Press(form, reply) => Click(rev, s, form, apiBaseUrl, reply).next;
      SessionOnlyAddsEvents(rev, s', apiBaseUrl, actions[1..]);
    }
  }
}

=== FILE: csv_events.dfy ===
/**
 * The backend's `loadEvents`: from the tokenised CSV records of a data file to
 * the event list the map shows. `backend/main.go` is the current revision and
 * `backend/main_v01.go` the first one.
 */
module CsvEvents {
  import opened Wrappers

  /** An event of the current backend; coordinates stay text, the radius is a float32 value. */
  datatype Event = Event(name: string, lat: string, lon: string, radius: real)

  /**
   * A Go slice as `encoding/json` sees it: a nil slice marshals to `null`, a
   * non-nil one (empty included) to an array.
   */
  datatype GoSlice<T> = Nil | Slice(items: seq<T>) {

    /** The elements; a nil slice has none. */
    function Elements(): seq<T> {
      if Nil? then [] else items
    }
  }

  /** The outcome of opening the file and reading all its CSV records. */
  datatype ReadResult = OpenFailed | ReadFailed | Records(rows: seq<seq<string>>)

  /** The files the backend can read, by path. */
  type FileSystem = string -> ReadResult

  /**
   * `strconv.ParseFloat(s, 32)`: the float32 value of `s`, or `None` on a syntax
   * or range error. Its value is already a float32, so the later narrowing is exact.
   */
  type Float32Parser = string -> Option<real>

  const DefaultFilename := "uk_festivals.csv"
  const DataDir := "data/"

  /** An empty filename selects the default file; the path is the data directory plus the name, unchecked. */
  function ResolvePath(filename: string): (path: string)
    ensures filename != "" ==> path == "data/" + filename
    ensures filename == "" ==> path == "data/uk_festivals.csv"
    ensures path[..|DataDir|] == DataDir
  {
    DataDir + (if filename == "" then DefaultFilename else filename)
  }

  /** Column 9 holds a usable radius: it exists, is not empty and parses. */
  predicate HasRadius(record: seq<string>, parse32: Float32Parser) {
    |record| >= 10 && record[9] != "" && parse32(record[9]).Some?
  }

  /** The radius of a row: the parsed column 9 when there is one, 0 in every other case. */
  function Radius(record: seq<string>, parse32: Float32Parser): (radius: real)
    ensures HasRadius(record, parse32) ==> Some(radius) == parse32(record[9])
    ensures !HasRadius(record, parse32) ==> radius == 0.0
  {
    var radius := 0.0;
    if |record| >= 10 && record[9] != "" then
      match parse32(record[9])
      case Some(parsed) => parsed
      case None => radius
    else
      radius
  }

  /** The event a row with at least three columns yields: name, latitude and longitude from columns 0-2. */
  function RowToEvent(record: seq<string>, parse32: Float32Parser): Event
    requires |record| >= 3
  {
    Event(record[0], record[1], record[2], Radius(record, parse32))
  }

  /** The data rows mapped to events, dropping rows with fewer than three columns. */
  function RowsToEvents(rows: seq<seq<string>>, parse32: Float32Parser): (events: seq<Event>)
    ensures |events| <= |rows|
  {
    if rows == [] then []
    else
      var rest := RowsToEvents(rows[1..], parse32);
      if |rows[0]| >= 3 then [RowToEvent(rows[0], parse32)] + rest else rest
  }

  /** Mapping distributes over concatenation: row order is kept. */
  lemma {:induction false} RowsToEventsAppend(a: seq<seq<string>>, b: seq<seq<string>>, parse32: Float32Parser)
    ensures RowsToEvents(a + b, parse32) == RowsToEvents(a, parse32) + RowsToEvents(b, parse32)
    decreases |a|
  {
    if a == [] {
      assert a + b == b;
    } else {
      assert (a + b)[0] == a[0];
      assert (a + b)[1..] == a[1..] + b;
      RowsToEventsAppend(a[1..], b, parse32);
    }
  }

  /** An event is in the list iff some row with three or more columns yields it. */
  lemma {:induction false} RowsToEventsExactly(rows: seq<seq<string>>, parse32: Float32Parser, e: Event)
    ensures e in RowsToEvents(rows, parse32) <==>
      exists i :: 0 <= i < |rows| && |rows[i]| >= 3 && e == RowToEvent(rows[i], parse32)
    decreases |rows|
  {
    if rows != [] {
      var tail := rows[1..];
      RowsToEventsExactly(tail, parse32, e);
      if exists i :: 0 <= i < |tail| && |tail[i]| >= 3 && e == RowToEvent(tail[i], parse32) {
        var i :| 0 <= i < |tail| && |tail[i]| >= 3 && e == RowToEvent(tail[i], parse32);
        assert rows[i + 1] == tail[i];
      }
      if exists i :: 0 <= i < |rows| && |rows[i]| >= 3 && e == RowToEvent(rows[i], parse32) {
        var i :| 0 <= i < |rows| && |rows[i]| >= 3 && e == RowToEvent(rows[i], parse32);
        if i > 0 {
          assert tail[i - 1] == rows[i];
        }
      }
    }
  }

  /** When every row is wide enough, row i becomes event i: nothing is dropped. */
  lemma {:induction false} RowsToEventsWide(rows: seq<seq<string>>, parse32: Float32Parser)
    requires forall i :: 0 <= i < |rows| ==> |rows[i]| >= 3
    ensures |RowsToEvents(rows, parse32)| == |rows|
    ensures forall i :: 0 <= i < |rows| ==> RowsToEvents(rows, parse32)[i] == RowToEvent(rows[i], parse32)
    decreases |rows|
  {
    if rows != [] {
      assert forall i :: 0 <= i < |rows[1..]| ==> rows[1..][i] == rows[i + 1];
      RowsToEventsWide(rows[1..], parse32);
    }
  }

  /**
   * `loadEvents` in `backend/main.go`. A file that cannot be opened or read
   * gives the empty, non-nil slice `[]Event{}`. Otherwise the header is skipped
   * and every row with three or more columns becomes one event, appended in
   * order to a slice that starts nil: it stays nil when nothing is appended.
   */
  function LoadEvents(filename: string, fs: FileSystem, parse32: Float32Parser): (events: GoSlice<Event>)
    ensures !fs(ResolvePath(filename)).Records? ==> events == Slice([])
    ensures fs(ResolvePath(filename)).Records? && |fs(ResolvePath(filename)).rows| <= 1 ==> events == Nil
    ensures fs(ResolvePath(filename)).Records? && |fs(ResolvePath(filename)).rows| > 1 ==>
      && events.Elements() == RowsToEvents(fs(ResolvePath(filename)).rows[1..], parse32)
      && (events.Nil? <==> events.Elements() == [])
    ensures |events.Elements()| <= if fs(ResolvePath(filename)).Records? && |fs(ResolvePath(filename)).rows| > 1
                                    then |fs(ResolvePath(filename)).rows| - 1 else 0
    ensures forall e :: e in events.Elements() ==>
      fs(ResolvePath(filename)).Records? &&
      exists i :: 1 <= i < |fs(ResolvePath(filename)).rows| && |fs(ResolvePath(filename)).rows[i]| >= 3
        && e == RowToEvent(fs(ResolvePath(filename)).rows[i], parse32)
  {
    match fs(ResolvePath(filename))
    case OpenFailed => Slice([])
    case ReadFailed => Slice([])
    case Records(records) =>
      if |records| > 1 then
        var events := RowsToEvents(records[1..], parse32);
        assert forall e :: e in events ==>
          exists i :: 1 <= i < |records| && |records[i]| >= 3 && e == RowToEvent(records[i], parse32) by {
          forall e | e in events
            ensures exists i :: 1 <= i < |records| && |records[i]| >= 3 && e == RowToEvent(records[i], parse32)
          {
            RowsToEventsExactly(records[1..], parse32, e);
            var j :| 0 <= j < |records[1..]| && |records[1..][j]| >= 3 && e == RowToEvent(records[1..][j], parse32);
            assert records[j + 1] == records[1..][j];
          }
        }
        if events == [] then Nil else Slice(events)
      else
        Nil
  }

  /** Every record has the same number of fields, as `encoding/csv`'s `ReadAll` demands by default. */
  predicate Uniform(rows: seq<seq<string>>, width: nat) {
    forall i :: 0 <= i < |rows| ==> |rows[i]| == width
  }

  /**
   * On records the CSV reader accepts, the column filter is all or nothing:
   * with fewer than three columns no row yields an event, otherwise every row does.
   */
  lemma {:induction false} UniformRowsAllOrNothing(rows: seq<seq<string>>, width: nat, parse32: Float32Parser)
    requires Uniform(rows, width)
    ensures width < 3 ==> RowsToEvents(rows, parse32) == []
    ensures width >= 3 ==> |RowsToEvents(rows, parse32)| == |rows|
    decreases |rows|
  {
    if rows != [] {
      assert Uniform(rows[1..], width) by {
        forall i | 0 <= i < |rows[1..]| ensures |rows[1..][i]| == width {
          assert rows[1..][i] == rows[i + 1];
        }
      }
      UniformRowsAllOrNothing(rows[1..], width, parse32);
    }
  }

  // ---------------------------------------------------------------------------
  // backend/main_v01.go

  /** An event of the first backend: no radius. */
  datatype EventV01 = EventV01(name: string, lat: string, lon: string)

  /** How the first backend stops: `log.Fatal` on an I/O error, or a runtime panic on a bad index. */
  datatype Crash = Fatal | IndexOutOfRange

  /** The first backend's row mapping: every row is indexed at columns 0-2, so a short row panics. */
  function RowsToEventsV01(rows: seq<seq<string>>): (r: Result<seq<EventV01>, Crash>)
    ensures r.Success? <==> forall i :: 0 <= i < |rows| ==> |rows[i]| >= 3
    ensures r.Success? ==> |r.value| == |rows|
    ensures r.Failure? ==> r.error == IndexOutOfRange
  {
    if rows == [] then Success([])
    else if |rows[0]| < 3 then Failure(IndexOutOfRange)
    else
      match RowsToEventsV01(rows[1..])
      case Success(rest) => Success([EventV01(rows[0][0], rows[0][1], rows[0][2])] + rest)
      case Failure(crash) => Failure(crash)
  }

  /**
   * `loadEvents` in `backend/main_v01.go`: always the default file; an I/O
   * error is fatal, an empty file panics on `records[1:]`, a short row panics.
   * The result starts nil, so a header-only file gives a nil slice.
   */
  function LoadEventsV01(fs: FileSystem): (r: Result<GoSlice<EventV01>, Crash>)
    ensures r.Success? <==>
      && fs(DataDir + DefaultFilename).Records?
      && |fs(DataDir + DefaultFilename).rows| >= 1
      && forall i :: 1 <= i < |fs(DataDir + DefaultFilename).rows| ==> |fs(DataDir + DefaultFilename).rows[i]| >= 3
    ensures r.Success? ==> |r.value.Elements()| == |fs(DataDir + DefaultFilename).rows| - 1
    ensures r.Success? ==> (r.value.Nil? <==> |fs(DataDir + DefaultFilename).rows| == 1)
    ensures !fs(DataDir + DefaultFilename).Records? ==> r == Failure(Fatal)
  {
    match fs(DataDir + DefaultFilename)
    case OpenFailed => Failure(Fatal)
    case ReadFailed => Failure(Fatal)
    case Records(records) =>
      if |records| == 0 then Failure(IndexOutOfRange)
      else
        assert forall i :: 1 <= i < |records| ==> records[i] == records[1..][i - 1];
        match RowsToEventsV01(records[1..])
        case Success(events) => Success(if events == [] then Nil else Slice(events))
        case Failure(crash) => Failure(crash)
  }

  /** An event of the current backend without its radius. */
  function WithoutRadius(e: Event): EventV01 {
    EventV01(e.name, e.lat, e.lon)
  }

  /**
   * On every file the first backend survives, the current backend with the
   * default filename returns the same events, now with a radius, and the two
   * agree on when the list is nil (marshalled as `null`).
   */
  lemma {:induction false} V01AgreesWithCurrent(fs: FileSystem, parse32: Float32Parser)
    requires LoadEventsV01(fs).Success?
    ensures |LoadEvents("", fs, parse32).Elements()| == |LoadEventsV01(fs).value.Elements()|
    ensures forall i :: 0 <= i < |LoadEventsV01(fs).value.Elements()| ==>
      WithoutRadius(LoadEvents("", fs, parse32).Elements()[i]) == LoadEventsV01(fs).value.Elements()[i]
    ensures LoadEvents("", fs, parse32).Nil? <==> LoadEventsV01(fs).value.Nil?
  {
    var records := fs(DataDir + DefaultFilename).rows;
    assert ResolvePath("") == DataDir + DefaultFilename;
    var rows := records[1..];
    assert forall i :: 0 <= i < |rows| ==> |rows[i]| >= 3 by {
      forall i | 0 <= i < |rows| ensures |rows[i]| >= 3 {
        assert rows[i] == records[i + 1];
      }
    }
    RowsToEventsWide(rows, parse32);
    V01RowsAgree(rows, parse32);
  }

  /** Row by row, the first backend's mapping is the current one without radius. */
  lemma {:induction false} V01RowsAgree(rows: seq<seq<string>>, parse32: Float32Parser)
    requires forall i :: 0 <= i < |rows| ==> |rows[i]| >= 3
    ensures RowsToEventsV01(rows).Success?
    ensures forall i :: 0 <= i < |rows| ==>
      RowsToEventsV01(rows).value[i] == WithoutRadius(RowToEvent(rows[i], parse32))
    decreases |rows|
  {
    if rows != [] {
      assert forall i :: 0 <= i < |rows[1..]| ==> rows[1..][i] == rows[i + 1];
      V01RowsAgree(rows[1..], parse32);
    }
  }
}

=== FILE: geojson.dfy ===
/** The GeoJSON records exchanged between the client and the backend. */
module GeoJson {

  /** A point is a coordinate list `[lng, lat, ...]`, as in the backend's `[][][]float64`. */
  type Position = seq<real>

  /** The geometry of a drawn area. The drawing toolkit produces it; the model never looks inside. */
  datatype Geometry = Geometry(kind: string, coordinates: seq<seq<Position>>)

  /** The three form values attached to a new event. */
  datatype Properties = Properties(startDate: string, endDate: string, name: string)

  /** A GeoJSON `Feature`: the body the client posts and the backend echoes back. */
  datatype Feature = Feature(kind: string, geometry: Geometry, properties: Properties)

  const FeatureKind := "Feature"
}

=== FILE: js.dfy ===
/**
 * The few JavaScript value semantics the client scripts rely on:
 * truthiness of a field read from a JSON object and `parseFloat`.
 */
module Js {

  /** A JavaScript number as `parseFloat` can return it: a finite value or `NaN`. */
  datatype JsNumber = Value(x: real) | NaN

  /**
   * A field read from a JSON object. `Absent` stands for `undefined` and `null`,
   * which behave alike for truthiness and for `parseFloat`.
   */
  datatype JsField = Absent | Text(s: string) | Number(n: real)

  /**
   * JavaScript truthiness of a field: `undefined`, `null`, `""` and `0` are falsy,
   * every other string and number is truthy.
   */
  predicate Truthy(f: JsField)
    ensures Truthy(f) ==> !f.Absent?
    ensures f.Text? ==> (Truthy(f) <==> f.s != "")
    ensures f.Number? ==> (Truthy(f) <==> f.n != 0.0)
  {
    match f
    case Absent => false
    case Text(s) => s != ""
    case Number(n) => n != 0.0
  }

  /**
   * `parseFloat` applied to a field. Parsing of text is an abstract oracle
   * `parse`; a number is returned unchanged and a missing field gives `NaN`.
   */
  function ParseFloat(f: JsField, parse: string -> JsNumber): (r: JsNumber)
    // NaN exactly for a missing field or text the oracle cannot read; a number passes through
    ensures r.NaN? <==> f.Absent? || (f.Text? && parse(f.s).NaN?)
    ensures f.Number? ==> r == Value(f.n)
  {
    match f
    case Absent => NaN
    case Text(s) => parse(s)
    case Number(n) => Value(n)
  }

  /** `isNaN(x)` negated: the number is a usable coordinate. */
  predicate IsNumber(x: JsNumber) {
    x.Value?
  }

  /** An oracle that behaves like `parseFloat` on the empty string: it gives `NaN`. */
  predicate EmptyIsNaN(parse: string -> JsNumber) {
    parse("") == NaN
  }

  /**
   * A text field that `parseFloat` reads as a number is truthy, provided the
   * empty string parses to `NaN`: for text, the parse test implies the truthiness test.
   */
  lemma ParsedTextIsTruthy(f: JsField, parse: string -> JsNumber)
    requires EmptyIsNaN(parse)
    requires f.Text? && IsNumber(ParseFloat(f, parse))
    ensures Truthy(f)
  {
  }
}

=== FILE: markers.dfy ===
/**
 * Client-side marker handling: which entries of an event list become markers,
 * how the map view is reframed afterwards, and the map-selector URL.
 */
module Markers {
  import opened Wrappers
  import opened Js

  /** One entry of the event list as the client receives it. */
  datatype RawEvent = RawEvent(name: JsField, lat: JsField, lon: JsField)

  /** A point marker; its coordinates are whatever `parseFloat` returned, `NaN` included. */
  datatype Marker = Marker(lat: JsNumber, lon: JsNumber, name: JsField)

  /** The map-view change a load ends with. */
  datatype View =
    | FitBounds(markers: seq<Marker>, padX: int, padY: int)
    | SetView(lat: real, lng: real, zoom: int)
    | NoChange

  /** The fixed fallback view: Italy, zoom 5. */
  const DefaultView := SetView(41.9, 12.5, 5)
  const Padding := 20

  /** The marker an entry yields: both coordinates through `parseFloat`, the name as given. */
  function ToMarker(e: RawEvent, parse: string -> JsNumber): Marker {
    Marker(ParseFloat(e.lat, parse), ParseFloat(e.lon, parse), e.name)
  }

  // ---------------------------------------------------------------------------
  // frontend/static/map.js and map_Backup.js: keep entries whose coordinates parse

  /** `!isNaN(lat) && !isNaN(lon)` after `parseFloat`. */
  predicate Parses(e: RawEvent, parse: string -> JsNumber) {
    IsNumber(ParseFloat(e.lat, parse)) && IsNumber(ParseFloat(e.lon, parse))
  }

  /** The markers of the entries whose latitude and longitude both parse, in input order. */
  function ValidMarkers(events: seq<RawEvent>, parse: string -> JsNumber): (r: seq<Marker>)
    ensures |r| <= |events|
    ensures forall m :: m in r ==> IsNumber(m.lat) && IsNumber(m.lon)
  {
    if events == [] then []
    else
      var rest := ValidMarkers(events[..|events| - 1], parse);
      var e := events[|events| - 1];
      if Parses(e, parse) then rest + [ToMarker(e, parse)] else rest
  }

  /** Filtering distributes over concatenation: input order is kept. */
  lemma {:induction false} ValidMarkersAppend(a: seq<RawEvent>, b: seq<RawEvent>, parse: string -> JsNumber)
    ensures ValidMarkers(a + b, parse) == ValidMarkers(a, parse) + ValidMarkers(b, parse)
    decreases |b|
  {
    if b == [] {
      assert a + b == a;
    } else {
      var b' := b[..|b| - 1];
      assert (a + b)[..|a + b| - 1] == a + b';
      assert (a + b)[|a + b| - 1] == b[|b| - 1];
      ValidMarkersAppend(a, b', parse);
    }
  }

  /** A marker is shown iff some entry with parseable coordinates yields it. */
  lemma {:induction false} ValidMarkersExactly(events: seq<RawEvent>, parse: string -> JsNumber, m: Marker)
    ensures m in ValidMarkers(events, parse) <==>
      exists i :: 0 <= i < |events| && Parses(events[i], parse) && m == ToMarker(events[i], parse)
    decreases |events|
  {
    if events != [] {
      var init := events[..|events| - 1];
      ValidMarkersExactly(init, parse, m);
      if exists i :: 0 <= i < |init| && Parses(init[i], parse) && m == ToMarker(init[i], parse) {
        var i :| 0 <= i < |init| && Parses(init[i], parse) && m == ToMarker(init[i], parse);
        assert events[i] == init[i];
      }
      if exists i :: 0 <= i < |events| && Parses(events[i], parse) && m == ToMarker(events[i], parse) {
        var i :| 0 <= i < |events| && Parses(events[i], parse) && m == ToMarker(events[i], parse);
        if i < |init| {
          assert init[i] == events[i];
        }
      }
    }
  }

  /** The view after a load: fit the markers with padding, or fall back to the default view. */
  function ViewFor(markers: seq<Marker>): View {
    if |markers| > 0 then FitBounds(markers, Padding, Padding) else DefaultView
  }

  /** The marker group's contents and the view change after a load. */
  datatype MarkerLoad = MarkerLoad(markers: seq<Marker>, view: View)

  /**
   * `loadMarkersOnMap` in `frontend/static/map.js`: clear the marker group, add
   * one marker per entry whose coordinates parse, then reframe the view.
   * `current` is the group's previous contents.
   */
  method LoadMarkersOnMap(current: seq<Marker>, events: seq<RawEvent>, parse: string -> JsNumber)
    returns (group: seq<Marker>, view: View)
    ensures group == ValidMarkers(events, parse)
    ensures |group| > 0 ==> view == FitBounds(group, 20, 20)
    ensures |group| == 0 ==> view == SetView(41.9, 12.5, 5)
    ensures MarkerLoad(group, view) == Reload(current, events, parse)
  {
    group := [];  // clearLayers
    var markers: seq<Marker> := [];
    var i := 0;
    while i < |events|
      invariant 0 <= i <= |events|
      invariant markers == ValidMarkers(events[..i], parse)
      invariant group == markers
    {
      var e := events[i];
      assert events[..i + 1] == events[..i] + [e];
      ValidMarkersAppend(events[..i], [e], parse);
      if IsNumber(ParseFloat(e.lat, parse)) && IsNumber(ParseFloat(e.lon, parse)) {
        var marker := Marker(ParseFloat(e.lat, parse), ParseFloat(e.lon, parse), e.name);
        markers := markers + [marker];
        group := group + [marker];
      }
      i := i + 1;
    }
    assert events[..i] == events;
    if |markers| > 0 {
      view := FitBounds(markers, Padding, Padding);
    } else {
      view := DefaultView;
    }
  }

  /** A load as a transition of the marker group: the previous contents are discarded. */
  function Reload(current: seq<Marker>, events: seq<RawEvent>, parse: string -> JsNumber): (r: MarkerLoad)
    ensures r.markers == ValidMarkers(events, parse)
    ensures r.view.FitBounds? <==> |r.markers| > 0
    ensures r.view.FitBounds? ==> r.view == FitBounds(r.markers, 20, 20)
    ensures !r.view.FitBounds? ==> r.view == SetView(41.9, 12.5, 5)
  {
    var markers := ValidMarkers(events, parse);
    MarkerLoad(markers, ViewFor(markers))
  }

  /** Loading the same list twice gives the same group and view as loading it once. */
  lemma ReloadIdempotent(current: seq<Marker>, events: seq<RawEvent>, parse: string -> JsNumber)
    ensures Reload(Reload(current, events, parse).markers, events, parse) == Reload(current, events, parse)
    ensures forall other: seq<Marker> :: Reload(other, events, parse) == Reload(current, events, parse)
  {
  }

  /** An entry whose latitude is "bad" is skipped silently; only "A" yields a marker. */
  lemma BadLatitudeSkipped()
    ensures
      var parse := (s: string) => if s == "41.9" then Value(41.9) else if s == "12.5" then Value(12.5) else NaN;
      var events := [RawEvent(Text("A"), Text("41.9"), Text("12.5")), RawEvent(Text("B"), Text("bad"), Text("12.5"))];
      ValidMarkers(events, parse) == [Marker(Value(41.9), Value(12.5), Text("A"))]
  {
    var parse := (s: string) => if s == "41.9" then Value(41.9) else if s == "12.5" then Value(12.5) else NaN;
    var a := RawEvent(Text("A"), Text("41.9"), Text("12.5"));
    var b := RawEvent(Text("B"), Text("bad"), Text("12.5"));
    assert [a, b][..1] == [a];
    assert [a][..0] == [];
    assert "bad" != "41.9" && "bad" != "12.5" by {
      assert "bad"[0] != "41.9"[0];
      assert "bad"[0] != "12.5"[0];
    }
  }

  // ---------------------------------------------------------------------------
  // frontend/static/map_Backup.js: the same load, guarded against a missing map

  /** `window.map` as the guarded load sees it: absent, or present with or without each method. */
  datatype MapHandle = NoMap | MapObject(hasFitBounds: bool, hasSetView: bool)

  /** A load that may end with a console warning instead of a view change. */
  datatype GuardedLoad = GuardedLoad(markers: seq<Marker>, view: View, warning: Option<string>)

  const NoMapForFitBounds := "Mappa non disponibile per fitBounds."
  const NoMapForSetView := "Mappa non disponibile per setView."

  /** `loadMarkersOnMap` in `frontend/static/map_Backup.js`. */
  function LoadMarkersGuarded(current: seq<Marker>, events: seq<RawEvent>, parse: string -> JsNumber,
                              handle: MapHandle): (r: GuardedLoad)
    ensures r.markers == ValidMarkers(events, parse)
    // with a usable map the view changes exactly as in the unguarded load, silently
    ensures |r.markers| > 0 && handle.MapObject? && handle.hasFitBounds ==>
      r.view == FitBounds(r.markers, 20, 20) && r.warning == None
    ensures |r.markers| == 0 && handle.MapObject? && handle.hasSetView ==>
      r.view == SetView(41.9, 12.5, 5) && r.warning == None
    // otherwise the view is left alone and only a warning is logged
    ensures r.view == NoChange <==> r.warning.Some?
    ensures r.view == NoChange <==> handle.NoMap? || (|r.markers| > 0 && !handle.hasFitBounds)
                                                 || (|r.markers| == 0 && !handle.hasSetView)
    // the warning names the call that could not be made
    ensures r.warning.Some? ==>
      r.warning.value == (if |r.markers| > 0 then NoMapForFitBounds else NoMapForSetView)
  {
    var markers := ValidMarkers(events, parse);
    if |markers| > 0 then
      if handle.MapObject? && handle.hasFitBounds then GuardedLoad(markers, FitBounds(markers, Padding, Padding), None)
      else GuardedLoad(markers, NoChange, Some(NoMapForFitBounds))
    else
      if handle.MapObject? && handle.hasSetView then GuardedLoad(markers, DefaultView, None)
      else GuardedLoad(markers, NoChange, Some(NoMapForSetView))
  }

  /** With a complete map object the guarded load is the unguarded one. */
  lemma GuardedAgreesWithUnguarded(current: seq<Marker>, events: seq<RawEvent>, parse: string -> JsNumber)
    ensures
      var r := LoadMarkersGuarded(current, events, parse, MapObject(true, true));
      MarkerLoad(r.markers, r.view) == Reload(current, events, parse) && r.warning == None
  {
  }

  // ---------------------------------------------------------------------------
  // frontend/app.js and frontend/app_v0.js: keep entries whose coordinates are truthy

  /**
   * The event list the drafts fetch. `JsonNull` stands for `null` (a nil slice
   * on the server) and for anything else that is not an array, on which
   * `events.forEach` throws. A rejected `fetch` (no server) and a body that is
   * not JSON reach the same `catch`, so they are `JsonNull` as well; that is
   * the case the load-error alert's advice to check the server is written for.
   */
  datatype EventsJson = JsonNull | JsonArray(entries: seq<RawEvent>)

  /** `event.lat && event.lon`. */
  predicate DraftKeeps(e: RawEvent) {
    Truthy(e.lat) && Truthy(e.lon)
  }

  /**
   * How far the drafts' `forEach` got: the markers already added to the map,
   * and whether it stopped because `L.marker` rejected a `NaN` coordinate
   * (Leaflet throws "Invalid LatLng object" for one).
   */
  datatype DraftScan = DraftScan(shown: seq<Marker>, aborted: bool)

  /**
   * The drafts' loop: an entry with truthy coordinates is passed to `L.marker`;
   * the first one whose coordinates do not both parse ends the loop.
   */
  function DraftMarkers(events: seq<RawEvent>, parse: string -> JsNumber): (r: DraftScan)
    ensures |r.shown| <= |events|
    ensures forall m :: m in r.shown ==> IsNumber(m.lat) && IsNumber(m.lon)
    decreases |events|
  {
    if events == [] then DraftScan([], false)
    else
      var e := events[0];
      if !DraftKeeps(e) then DraftMarkers(events[1..], parse)
      else if !Parses(e, parse) then DraftScan([], true)
      else
        var rest := DraftMarkers(events[1..], parse);
        DraftScan([ToMarker(e, parse)] + rest.shown, rest.aborted)
  }

  /** Running the loop over one list and then another: the second part runs only if the first did not stop. */
  function Continue(first: DraftScan, next: DraftScan): DraftScan {
    if first.aborted then first else DraftScan(first.shown + next.shown, next.aborted)
  }

  /** The drafts' loop over a concatenation is the loop over the first part, continued over the second. */
  lemma {:induction false} DraftMarkersAppend(a: seq<RawEvent>, b: seq<RawEvent>, parse: string -> JsNumber)
    ensures DraftMarkers(a + b, parse) == Continue(DraftMarkers(a, parse), DraftMarkers(b, parse))
    decreases |a|
  {
    if a == [] {
      assert a + b == b;
    } else {
      assert (a + b)[0] == a[0];
      assert (a + b)[1..] == a[1..] + b;
      DraftMarkersAppend(a[1..], b, parse);
    }
  }

  /**
   * The loop stops iff some entry has truthy but unparsable coordinates. When
   * it does not stop, a marker is shown iff some entry with truthy coordinates yields it.
   */
  lemma {:induction false} DraftMarkersExactly(events: seq<RawEvent>, parse: string -> JsNumber, m: Marker)
    ensures DraftMarkers(events, parse).aborted <==>
      exists i :: 0 <= i < |events| && DraftKeeps(events[i]) && !Parses(events[i], parse)
    ensures !DraftMarkers(events, parse).aborted ==>
      (m in DraftMarkers(events, parse).shown <==>
       exists i :: 0 <= i < |events| && DraftKeeps(events[i]) && m == ToMarker(events[i], parse))
    decreases |events|
  {
    if events != [] {
      var tail := events[1..];
      DraftMarkersExactly(tail, parse, m);
      forall i | 0 <= i < |tail| ensures tail[i] == events[i + 1] { }
      if exists i :: 0 <= i < |events| && DraftKeeps(events[i]) && !Parses(events[i], parse) {
        var i :| 0 <= i < |events| && DraftKeeps(events[i]) && !Parses(events[i], parse);
        if i > 0 {
          assert DraftKeeps(tail[i - 1]) && !Parses(tail[i - 1], parse);
        }
      }
      if exists i :: 0 <= i < |events| && DraftKeeps(events[i]) && m == ToMarker(events[i], parse) {
        var i :| 0 <= i < |events| && DraftKeeps(events[i]) && m == ToMarker(events[i], parse);
        if i > 0 {
          assert DraftKeeps(tail[i - 1]) && m == ToMarker(tail[i - 1], parse);
        }
      }
    }
  }

  const LoadErrorAlert := "Errore durante il caricamento degli eventi. Verifica che il server sia avviato."

  /** A draft's load: the markers on the map, the view change and the alert shown, if any. */
  datatype DraftOutcome = DraftOutcome(markers: seq<Marker>, view: View, alert: Option<string>)

  /**
   * `frontend/app.js`: add the markers, then fit the bounds when there is at
   * least one. A thrown error (a list that is not an array, a `NaN` coordinate)
   * skips the fit and shows the load-error alert; markers already added stay.
   * The initial view is never reset.
   */
  function DraftLoad(json: EventsJson, parse: string -> JsNumber): (r: DraftOutcome)
    ensures json.JsonNull? ==> r == DraftOutcome([], NoChange, Some(LoadErrorAlert))
    ensures json.JsonArray? ==> r.markers == DraftMarkers(json.entries, parse).shown
    ensures r.alert.Some? <==> json.JsonNull? || DraftMarkers(json.entries, parse).aborted
    ensures r.alert.Some? ==> r.alert.value == LoadErrorAlert
    ensures r.view.FitBounds? <==> r.alert.None? && |r.markers| > 0
    ensures r.view.FitBounds? ==> r.view == FitBounds(r.markers, 20, 20)
    ensures !r.view.FitBounds? ==> r.view == NoChange
  {
    match json
    case JsonNull => DraftOutcome([], NoChange, Some(LoadErrorAlert))
    case JsonArray(entries) =>
      var scan := DraftMarkers(entries, parse);
      if scan.aborted then DraftOutcome(scan.shown, NoChange, Some(LoadErrorAlert))
      else if |scan.shown| > 0 then DraftOutcome(scan.shown, FitBounds(scan.shown, Padding, Padding), None)
      else DraftOutcome(scan.shown, NoChange, None)
  }

  /**
   * `frontend/app_v0.js`: the same markers, the view is never reframed, and an
   * error is only logged to the console.
   */
  function FirstDraftLoad(json: EventsJson, parse: string -> JsNumber): (r: DraftOutcome)
    ensures r.markers == DraftLoad(json, parse).markers
    ensures r.view == NoChange && r.alert == None
  {
    match json
    case JsonNull => DraftOutcome([], NoChange, None)
    case JsonArray(entries) => DraftOutcome(DraftMarkers(entries, parse).shown, NoChange, None)
  }

  /**
   * The two filters disagree both ways. A truthy, non-numeric latitude ahead
   * of a good entry makes `L.marker` throw in the draft, so nothing is shown and
   * the load-error alert appears, while the later revision skips it and shows
   * the good entry. A numeric zero is falsy, so the drafts drop a point the
   * later revision keeps.
   */
  lemma FiltersDiffer()
    ensures
      var parse := (s: string) => if s == "41.9" then Value(41.9) else if s == "12.5" then Value(12.5) else NaN;
      var events := [RawEvent(Text("B"), Text("bad"), Text("12.5")), RawEvent(Text("A"), Text("41.9"), Text("12.5"))];
      && ValidMarkers(events, parse) == [Marker(Value(41.9), Value(12.5), Text("A"))]
      && DraftLoad(JsonArray(events), parse) == DraftOutcome([], NoChange, Some(LoadErrorAlert))
    ensures
      var parse := (s: string) => NaN;
      var e := RawEvent(Text("Zero"), Number(0.0), Number(0.0));
      DraftMarkers([e], parse).shown == [] && ValidMarkers([e], parse) == [Marker(Value(0.0), Value(0.0), Text("Zero"))]
  {
    var parse := (s: string) => if s == "41.9" then Value(41.9) else if s == "12.5" then Value(12.5) else NaN;
    var b := RawEvent(Text("B"), Text("bad"), Text("12.5"));
    var a := RawEvent(Text("A"), Text("41.9"), Text("12.5"));
    assert "bad" != "41.9" && "bad" != "12.5" by {
      assert "bad"[0] != "41.9"[0];
      assert "bad"[0] != "12.5"[0];
    }
    assert [b, a][..1] == [b];
    assert [b][..0] == [];
    var z := RawEvent(Text("Zero"), Number(0.0), Number(0.0));
    assert [z][..0] == [];
    assert [z][1..] == [];
  }

  /** Both coordinates are text, as in the lists the backend serves. */
  predicate TextCoordinates(e: RawEvent) {
    e.lat.Text? && e.lon.Text?
  }

  /**
   * On lists the backend serves (text coordinates), the drafts show a prefix of
   * what the later revision shows, and exactly the same markers when their loop
   * does not stop on a `NaN` coordinate.
   */
  lemma {:induction false} DraftsShowPrefixOfParsed(events: seq<RawEvent>, parse: string -> JsNumber)
    requires EmptyIsNaN(parse)
    requires forall i :: 0 <= i < |events| ==> TextCoordinates(events[i])
    ensures DraftMarkers(events, parse).shown <= ValidMarkers(events, parse)
    ensures !DraftMarkers(events, parse).aborted ==> DraftMarkers(events, parse).shown == ValidMarkers(events, parse)
    decreases |events|
  {
    if events != [] {
      var e := events[0];
      var tail := events[1..];
      assert events == [e] + tail;
      assert forall i :: 0 <= i < |tail| ==> tail[i] == events[i + 1];
      DraftsShowPrefixOfParsed(tail, parse);
      ValidMarkersAppend([e], tail, parse);
      assert ValidMarkers([e], parse) == (if Parses(e, parse) then [ToMarker(e, parse)] else []);
      assert DraftMarkers(events, parse) ==
        if !DraftKeeps(e) then DraftMarkers(tail, parse)
        else if !Parses(e, parse) then DraftScan([], true)
        else DraftScan([ToMarker(e, parse)] + DraftMarkers(tail, parse).shown, DraftMarkers(tail, parse).aborted);
      assert [e][..0] == [];
      if Parses(e, parse) {
        ParsedTextIsTruthy(e.lat, parse);
        ParsedTextIsTruthy(e.lon, parse);
      }
    }
  }

  // ---------------------------------------------------------------------------
  // The map selector

  const FilenameQuery := "/?filename="

  /** `changeMap`: both branches navigate to the query URL, with the value unencoded. */
  function ChangeMap(selected: string): (url: string)
    ensures url == "/?filename=" + selected
    ensures url[..|FilenameQuery|] == FilenameQuery && url[|FilenameQuery|..] == selected
  {
    if selected != "" then FilenameQuery + selected else FilenameQuery
  }
}

=== FILE: wrappers.dfy ===
/** Failure-compatible wrappers shared by the client and server models. */
module Wrappers {

  /** An optional value: a JavaScript `undefined`/`null` field or a Go "no value". */
  datatype Option<+T> = None | Some(value: T)

  /** A computation that either produces a value or fails with an error. */
  datatype Result<+R, +E> = Success(value: R) | Failure(error: E)
}
